=== FILE: README.md ===
# MySQL platform detection and foreign-key/index overlap

A Dafny model of two small parts of Doctrine DBAL:

- **Platform selection.** `AbstractMySQLDriver::createDatabasePlatformForVersion` takes the version string a MySQL-family server reports. It decides which platform variant the connection uses: `MySqlPlatform` (the default from `getDatabasePlatform`), `MySQL57Platform`, `MySQL80Platform` or `MariaDb1027Platform`. A string naming `mariadb` in any letter case is read with the MariaDB grammar `^(?:5\.5\.5-)?(mariadb-)?\d+\.\d+\.\d+` (case-insensitive). Any other string is read with the Oracle grammar `^\d+(?:\.\d+(?:\.\d+)?)?`, and a bare `5.7` is promoted to 5.7.9. A string that does not match raises `InvalidPlatformVersion`, which carries the string.
- **Foreign-key/index overlap.** `ForeignKeyConstraint::intersectsIndexColumns` asks whether a foreign key's local columns and an index's columns name a common column. Names are compared after removing one surrounding pair of backticks and folding ASCII case.

Modules:

| file | module | contents |
|---|---|---|
| `wrappers.dfy` | `Wrappers` | `Option` and `Result`; a thrown exception becomes `Failure` |
| `ascii.dfy` | `Ascii` | character classes, ASCII case folding, and `FindIgnoringCase` (PHP's `stripos`) |
| `numerals.dfy` | `Numerals` | greedy digit runs (`\d+`) and their decimal values |
| `versions.dfy` | `Versions` | version triples, the `>=` comparison, the thresholds, the error value |
| `oracle_mysql.dfy` | `OracleMySql` | `getOracleMysqlVersionNumber`: the grammar and the 5.7 normalisation |
| `mariadb.dfy` | `MariaDb` | `getMariaDbMysqlVersionNumber`: the grammar, in the order a backtracking engine tries its optional groups |
| `mysql_driver.dfy` | `MySqlDriver` | `createDatabasePlatformForVersion`, `getDatabasePlatform`, and worked examples |
| `schema.dfy` | `Schema`, `SchemaExamples` | `intersectsIndexColumns`, its reference meaning, and the rows of its test data |

### How the regular expressions are modelled

Each grammar is stated twice:

- as a **parser**: a function that reads the string the way the engine does;
- as a **declarative match predicate** (`Matches`).

Lemmas connect the two. For the Oracle grammar, the parser's result is the unique greedy match. For the MariaDB grammar each of the four choices of the two optional groups can give a match, but at most two of them match the same string. Whether or not the prefix is taken, the text after it must start with the marker or with a digit, and no text starts with both; so at most one choice with the prefix and one without can match. The parser returns the one the engine prefers: the server prefix before the marker, and each group tried present before absent.

A consequence worth knowing is `5.5.5-MariaDB` with nothing after it. The engine backtracks out of the prefix group and reports 5.5.5 itself.

### How `version_compare` is modelled

Both parsed versions are compared as integer triples, lexicographically (`Versions.AtLeast`).

- **Oracle path, missing patch.** `getOracleMysqlVersionNumber` builds the string `major.minor.` with an empty patch when none was captured. Here that patch is read as 0.
- **The `'8'` threshold.** Comparing against `'8'` reads the major number alone. `Versions.MySQL80ThresholdIsMajor` states this.

The Oracle parser keeps the captured digit text, not just its value. The 5.7 promotion compares text, so `05.7` is not promoted; `MySqlDriver.PaddedFiveSevenExample` shows this.

## Model

| member | source | states |
|---|---|---|
| MySqlDriver.CreatePlatformForVersion | src/Driver/AbstractMySQLDriver.php:35-54 | an error carries the input string and names the MariaDB format exactly when the string names MariaDB; a MariaDB string never yields MySQL80 or MySQL57; any other string never yields MariaDb1027 |
| MySqlDriver.DatabasePlatform | src/Driver/AbstractMySQLDriver.php:121-124 | `getDatabasePlatform` gives the plain MySQL platform, the fallback of every path |
| MySqlDriver.IsMariaDb | src/Driver/AbstractMySQLDriver.php:37 | the vendor test is `stripos(version, 'mariadb') !== false` (its meaning is stated by `VendorDetection`) |
| MySqlDriver.VendorDetection | src/Driver/AbstractMySQLDriver.php:37 | a string is treated as MariaDB exactly when `mariadb` occurs in it at some position, in any letter case |
| Ascii.FindIgnoringCase | src/Driver/AbstractMySQLDriver.php:37 | `stripos`: the result is a position where the needle occurs ignoring case, with no occurrence before it; no result means no occurrence at all |
| Ascii.FindIgnoringCaseDecidesContains | src/Driver/AbstractMySQLDriver.php:37 | `stripos(...) !== false` holds exactly when the needle occurs somewhere in the text |
| MySqlDriver.NoLetterNoVendor | src/Driver/AbstractMySQLDriver.php:37 | a string without ASCII letters is never treated as MariaDB |
| MySqlDriver.MariaDbOutcomes | src/Driver/AbstractMySQLDriver.php:37-39 | on the MariaDB path the call fails exactly when the MariaDB grammar fails; it yields MariaDb1027 exactly when the parsed version is at least 10.2.7, and the default platform exactly when it parses below 10.2.7 |
| MySqlDriver.OracleOutcomes | src/Driver/AbstractMySQLDriver.php:42-53 | on the Oracle path a major of 8 or more gives MySQL80; otherwise a normalised version of at least 5.7.9 gives MySQL57, and anything else the default; each outcome holds exactly under its condition |
| MySqlDriver.OracleFailure | src/Driver/AbstractMySQLDriver.php:42-43 | on the Oracle path the call fails exactly when the string does not start with a digit |
| MySqlDriver.BareFiveSevenSelectsMySQL57 | src/Driver/AbstractMySQLDriver.php:83-85 | `5.7` followed by anything that does not continue a number selects MySQL57 |
| MySqlDriver.ServerPrefixWithoutVersionSelectsDefault | src/Driver/AbstractMySQLDriver.php:38-39 | a MariaDB string `5.5.5-` after which no `a.b.c` can be read, with or without a marker (`5.5.5-MariaDB`, `5.5.5-10.2-MariaDB`), resolves to 5.5.5 and gets the default platform |
| MySqlDriver.MarkedMariaDbDecides | src/Driver/AbstractMySQLDriver.php:94-102 | every `5.5.5-<marker>a.b.c` followed by a non-digit, the marker `mariadb-` in any letter case (`MariaDB-`, `Mariadb-`), is decided by `a.b.c` against 10.2.7 |
| MySqlDriver.MySQL57Example | src/Driver/AbstractMySQLDriver.php:48-50 | `5.7.10` selects MySQL57 |
| MySqlDriver.BareFiveSevenExample | src/Driver/AbstractMySQLDriver.php:83-85 | `5.7` selects MySQL57 |
| MySqlDriver.BelowMySQL57Example | src/Driver/AbstractMySQLDriver.php:48-53 | `5.6.99` gets the default platform |
| MySqlDriver.PaddedFiveSevenExample | src/Driver/AbstractMySQLDriver.php:83 | `05.7` is not promoted to 5.7.9, because the check compares digit text, so it gets the default platform |
| MySqlDriver.MySQL80Example | src/Driver/AbstractMySQLDriver.php:44-46 | `8.0.1` selects MySQL80 |
| MySqlDriver.InvalidExample | src/Driver/AbstractMySQLDriver.php:66-77 | `not-a-version` raises the error |
| MySqlDriver.OracleTripleDecides | src/Driver/AbstractMySQLDriver.php:43-53 | every `a.b.c` of digit runs is decided by its three numbers |
| MySqlDriver.OraclePairDecides | src/Driver/AbstractMySQLDriver.php:79-87 | every `a.b` of digit runs other than a bare `5.7` is decided by its two numbers, with the patch read as 0 |
| MySqlDriver.ServerPrefixOldMariaDbExample | src/Driver/AbstractMySQLDriver.php:37-53 | `5.5.5-MariaDB-10.0.8-xenial` is read as 10.0.8, not 5.5.5, and gets the default platform |
| MySqlDriver.ServerPrefixMariaDb1027Example | src/Driver/AbstractMySQLDriver.php:38-39 | `5.5.5-MariaDB-10.2.7-xenial` selects MariaDb1027 |
| MySqlDriver.BacktrackingExample | src/Driver/AbstractMySQLDriver.php:102 | `5.5.5-MariaDB` is read as 5.5.5 and gets the default platform |
| OracleMySql.Parse | src/Driver/AbstractMySQLDriver.php:66-77 | the Oracle grammar fails exactly on strings that do not start with a digit, and the error carries the string and the Oracle format |
| OracleMySql.Matches | src/Driver/AbstractMySQLDriver.php:68 | reference meaning of `^(?P<major>\d+)(?:\.(?P<minor>\d+)(?:\.(?P<patch>\d+))?)?`: the captures spell a prefix of the string, each number is a maximal digit run, and an optional group is left out only when it cannot be read |
| OracleMySql.ParseIsGreedyMatch | src/Driver/AbstractMySQLDriver.php:68 | the parser returns `m` exactly when `m` is the greedy match: each number is a maximal digit run, the patch is captured only with a minor, and an optional part is left out only when it cannot be read |
| OracleMySql.ParseMajorMinorPatch | src/Driver/AbstractMySQLDriver.php:68 | `a.b.c` followed by a non-digit parses as all three components |
| OracleMySql.ParseReadsOnlyPrefix | src/Driver/AbstractMySQLDriver.php:68 | text after the matched part that does not extend the last number (`-log`, `-xenial`) does not change the parse |
| OracleMySql.Normalize | src/Driver/AbstractMySQLDriver.php:79-87 | the major number is kept; a missing minor becomes 0; a missing patch stays missing, except that a bare `5`.`7` gets one |
| OracleMySql.OracleVersion.Compared | src/Driver/AbstractMySQLDriver.php:87 | the triple `version_compare` sees for the string built here, with an empty patch read as 0. PHP orders an empty trailing component below 0 (`5.7.` is below `5.7.0`), so this agrees with PHP only against the two thresholds this path meets, `'8'` and `'5.7.9'` (stated by `BareFiveSevenMeetsMySQL57`) |
| OracleMySql.IsBareFiveSeven | src/Driver/AbstractMySQLDriver.php:83 | the `===` test on the captured texts: major is the text `5`, minor the text `7`, no patch captured, so `05.7` and `5.07` do not qualify |
| OracleMySql.BareFiveSevenMeetsMySQL57 | src/Driver/AbstractMySQLDriver.php:83-85 | the promoted bare 5.7 compares as exactly 5.7.9; any other version compares with its patch, or 0 when it has none |
| MariaDb.Matches | src/Driver/AbstractMySQLDriver.php:102 | reference meaning of `^(?:5\.5\.5-)?(mariadb-)?\d+\.\d+\.\d+` (case-insensitive): the optional groups used and the three digit runs spell a prefix of the string, and the last run is maximal |
| MariaDb.MariaDbMatch.Rank | src/Driver/AbstractMySQLDriver.php:102 | the order PCRE tries the optional groups in: the server prefix before the marker, each present before absent, so a higher rank is preferred |
| MariaDb.ParseIsPreferredMatch | src/Driver/AbstractMySQLDriver.php:100-113 | the parser returns `m` exactly when `m` is a match and no match the engine prefers exists |
| MariaDb.ParseFailsIffNoMatch | src/Driver/AbstractMySQLDriver.php:100-111 | the MariaDB grammar fails exactly when no choice of its optional groups matches |
| MariaDb.Parse | src/Driver/AbstractMySQLDriver.php:107-110 | a failure carries the string and the MariaDB format |
| MariaDb.Alternative | src/Driver/AbstractMySQLDriver.php:102 | with both optional groups decided in advance, a result is a match that uses exactly those groups |
| MariaDb.AlternativeComplete | src/Driver/AbstractMySQLDriver.php:102 | every match is found by the alternative with its own choice of groups |
| MariaDb.ServerPrefixAndMarkerUnwrapped | src/Driver/AbstractMySQLDriver.php:94-102 | `5.5.5-` + marker + `a.b.c` + a non-digit tail is read as `a.b.c` |
| MariaDb.ServerPrefixWithoutVersionIsTheVersion | src/Driver/AbstractMySQLDriver.php:102 | when no `a.b.c` can be read after `5.5.5-`, with or without a marker, the engine backtracks and reports 5.5.5 |
| MariaDb.TwoNumbersAreNoVersion | src/Driver/AbstractMySQLDriver.php:102 | two numbers that no third one follows (`10.2-MariaDB`) are not read as `a.b.c` |
| MariaDb.ParseReadsOnlyPrefix | src/Driver/AbstractMySQLDriver.php:102 | text after the matched part that does not extend the patch does not change the parse (except a bare `5.5.5` followed by `-`) |
| MariaDb.ParseNeedsDigitOrMarker | src/Driver/AbstractMySQLDriver.php:102 | any match starts with a digit or an `m` in some case |
| Versions.AtLeast | src/Driver/AbstractMySQLDriver.php:38-48 | `version_compare(..., '>=')` on numeric triples: the first component that differs decides (its order properties are stated by `AtLeastIsTotalOrder`) |
| Versions.AtLeastIsTotalOrder | src/Driver/AbstractMySQLDriver.php:38-48 | the version comparison is reflexive, total, antisymmetric and transitive |
| Versions.MySQL80ThresholdIsMajor | src/Driver/AbstractMySQLDriver.php:44 | being at least `'8'` means having a major of 8 or more |
| Numerals.Value | src/Driver/AbstractMySQLDriver.php:38-48 | the number `version_compare` reads from each captured component, base ten (leading zeros ignored, as `LeadingZeroKeepsValue` states) |
| Numerals.DigitRun | src/Driver/AbstractMySQLDriver.php:68 | `\d+` reads the longest run of digits |
| Numerals.NumberAtReadsWholeRun | src/Driver/AbstractMySQLDriver.php:68 | a digit run followed by a non-digit is read whole |
| Numerals.LeadingZeroKeepsValue | src/Driver/AbstractMySQLDriver.php:44-48 | a leading zero does not change a number's value |
| Schema.IntersectsIndexColumns | tests/Doctrine/Tests/DBAL/Schema/ForeignKeyConstraintTest.php:14-37 | the nested scan answers true exactly when the normalised local columns and the normalised index columns share a name |
| Schema.Normalize | tests/Doctrine/Tests/DBAL/Schema/ForeignKeyConstraintTest.php:45-67 | the compared form of a column name is the name with one surrounding pair of backticks removed and each character lower-cased, so it carries no capital letters |
| Schema.NormalizeSpelledOut | tests/Doctrine/Tests/DBAL/Schema/ForeignKeyConstraintTest.php:45-67 | character `i` of the compared form is character `i` of the name, or `i + 1` when the name is quoted, lower-cased |
| Schema.AlikeIffSameLettersIgnoringCase | tests/Doctrine/Tests/DBAL/Schema/ForeignKeyConstraintTest.php:45-67 | two names compare alike exactly when, backticks removed, they have the same length and agree character by character up to ASCII case |
| Schema.Intersects | tests/Doctrine/Tests/DBAL/Schema/ForeignKeyConstraintTest.php:45-67 | reference meaning of the overlap test: the normalised column sets share a name |
| Schema.IntersectsIffSharedColumn | tests/Doctrine/Tests/DBAL/Schema/ForeignKeyConstraintTest.php:45-67 | the lists intersect exactly when some local column and some index column normalise alike |
| Schema.IntersectsConcat | tests/Doctrine/Tests/DBAL/Schema/ForeignKeyConstraintTest.php:57-65 | adding index columns keeps a shared column shared; the result for two parts is the disjunction of the parts |
| Schema.ReorderedColumnsSameAnswer | tests/Doctrine/Tests/DBAL/Schema/ForeignKeyConstraintTest.php:54-55 | reordering the index columns does not change the result |
| Schema.SameColumnsSameAnswer | tests/Doctrine/Tests/DBAL/Schema/ForeignKeyConstraintTest.php:57-65 | only which names occur among the index columns matters, not their order or repeats |
| Schema.IntersectsIsSymmetric | tests/Doctrine/Tests/DBAL/Schema/ForeignKeyConstraintTest.php:45-67 | which side is the foreign key does not matter |
| Schema.NoColumnsNoIntersection | tests/Doctrine/Tests/DBAL/Schema/ForeignKeyConstraintTest.php:46-47 | an index with no columns never intersects |
| Schema.QuotingIgnored | tests/Doctrine/Tests/DBAL/Schema/ForeignKeyConstraintTest.php:49-52 | backticks around a name without its own do not change how it compares |
| Schema.CaseIgnored | tests/Doctrine/Tests/DBAL/Schema/ForeignKeyConstraintTest.php:67 | a name written in capitals compares like the original |
| Schema.Quote | tests/Doctrine/Tests/DBAL/Schema/ForeignKeyConstraintTest.php:18 | removing the backticks from a quoted name gives the name back |
| Schema.QuotedLocalColumnsAgree | tests/Doctrine/Tests/DBAL/Schema/ForeignKeyConstraintTest.php:14-37 | quoting the foreign key's columns never changes the result |
| Schema.QuotedIndexColumnsAgree | tests/Doctrine/Tests/DBAL/Schema/ForeignKeyConstraintTest.php:49-50 | quoting the index's columns never changes the result |
| Schema.CapitalisedColumnsAgree | tests/Doctrine/Tests/DBAL/Schema/ForeignKeyConstraintTest.php:67 | capitalising the index's columns never changes the result |
| SchemaExamples.QuotedAndBareForeignKeysAgree | tests/Doctrine/Tests/DBAL/Schema/ForeignKeyConstraintTest.php:14-37 | the escaped and the unquoted test foreign keys give the same answer on every index |
| SchemaExamples.DisjointRowsHold | tests/Doctrine/Tests/DBAL/Schema/ForeignKeyConstraintTest.php:46-47 | `baz` and `baz, bloo` do not intersect either foreign key |
| SchemaExamples.SingleColumnRowsHold | tests/Doctrine/Tests/DBAL/Schema/ForeignKeyConstraintTest.php:49-52 | `` `foo` ``, `` `bar` ``, `foo` and `bar` each intersect both foreign keys |
| SchemaExamples.BothColumnsRowsHold | tests/Doctrine/Tests/DBAL/Schema/ForeignKeyConstraintTest.php:54-55 | `foo, bar` and `bar, foo` intersect both foreign keys |
| SchemaExamples.ExtraColumnRowsHold | tests/Doctrine/Tests/DBAL/Schema/ForeignKeyConstraintTest.php:57-62 | a foreign-key column next to `baz`, in either order, intersects |
| SchemaExamples.ThreeColumnRowsHold | tests/Doctrine/Tests/DBAL/Schema/ForeignKeyConstraintTest.php:63-65 | `foo` among `bloo` and `baz`, at any position, intersects |
| SchemaExamples.CapitalisedRowHolds | tests/Doctrine/Tests/DBAL/Schema/ForeignKeyConstraintTest.php:67 | `FOO` intersects both foreign keys |

## Left out

- `getSchemaManager` and `getExceptionConverter`: they only construct collaborators whose code is not part of this model.
- The platform classes themselves: they appear only as the tags of `MySqlDriver.Platform`.
- The wording of the `InvalidPlatformVersion` message: the error carries the string and an opaque format label (`Versions.ExpectedFormat`).
- General `version_compare`: there are no alpha/RC suffixes or special-character canonicalisation. Only numeric dotted triples are compared. On the Oracle path the string `major.minor.` with an empty patch is compared as patch 0, which orders the same way against `'8'` and `'5.7.9'`.
- Very large numbers: PHP reads each version component as a machine integer, and the model reads them as unbounded naturals. They differ only for components beyond the platform's integer range.
- Locale: case folding is assumed to be ASCII-only (`A`..`Z` to `a`..`z`), as `stripos` does from PHP 8.2 on or under the C locale. Before PHP 8.2 `stripos` uses the current locale's `tolower`, which may fold other bytes too (a Turkish locale, say); the model does not follow that. Each `char` stands for one byte.
- A general regular-expression engine: only the two fixed grammars are modelled.
- The implementation of `ForeignKeyConstraint::intersectsIndexColumns` is not part of this model. `Schema.IntersectsIndexColumns` follows the behaviour its tests pin down: one surrounding pair of backticks removed, then ASCII lower-casing, then a search for a common name.
- The other members of `ForeignKeyConstraint` and `Index`: names, options, the foreign table and columns, and constructor validation. The datatypes carry these fields but nothing reads them.
- Determinism of the selection (the same input always gives the same platform or the same error): this holds because every operation here is a function, so no lemma states it.
- MariaDb.ParseReadsOnlyPrefix: weaker than "any suffix is ignored". A match that used neither optional group and reads as a bare `5.5.5`, followed by `-`, may be reparsed with the server-prefix group: that happens when a version follows the `-` (`5.5.5-10.0.8`), while `5.5.5-log` stays 5.5.5. The lemma excludes every such case.

=== FILE: ascii.dfy ===
/** Byte-level character classes and ASCII case folding, as PHP's `stripos`
    and `strtolower` apply them.  A PHP string is a byte string; here each
    `char` stands for one byte, and only `A`..`Z` change under folding. */
module Ascii {
  import opened Wrappers

  predicate IsDigit(c: char) {
    '0' <= c <= '9'
  }

  predicate IsUpper(c: char) {
    'A' <= c <= 'Z'
  }

  predicate IsLower(c: char) {
    'a' <= c <= 'z'
  }

  predicate IsLetter(c: char) {
    IsUpper(c) || IsLower(c)
  }

  function LowerChar(c: char): (r: char)
    ensures IsUpper(c) ==> IsLower(r) && r as int == c as int + 32
    ensures !IsUpper(c) ==> r == c
  {
    if IsUpper(c) then (c as int + 32) as char else c
  }

  function UpperChar(c: char): (r: char)
    ensures IsLower(c) ==> IsUpper(r) && r as int == c as int - 32
    ensures !IsLower(c) ==> r == c
  {
    if IsLower(c) then (c as int - 32) as char else c
  }

  /** ASCII lower-casing of a whole string, character by character. */
  function Lower(s: string): (r: string)
    ensures |r| == |s|
    ensures forall i :: 0 <= i < |s| ==> r[i] == LowerChar(s[i])
  {
    seq(|s|, i requires 0 <= i < |s| => LowerChar(s[i]))
  }

  /** ASCII upper-casing of a whole string, character by character. */
  function Upper(s: string): (r: string)
    ensures |r| == |s|
    ensures forall i :: 0 <= i < |s| ==> r[i] == UpperChar(s[i])
  {
    seq(|s|, i requires 0 <= i < |s| => UpperChar(s[i]))
  }

  /** Folding is blind to the case a letter was written in. */
  lemma LowerUpperChar(c: char)
    ensures LowerChar(UpperChar(c)) == LowerChar(c)
  {
  }

  /** `needle` occurs in `text` at position `i`, ignoring ASCII letter case. */
  predicate OccursAt(text: string, needle: string, i: nat) {
    i + |needle| <= |text| && Lower(text[i..i + |needle|]) == Lower(needle)
  }

  /** An occurrence starts with the needle's first character, up to case. */
  lemma OccursAtHead(text: string, needle: string, i: nat)
    requires OccursAt(text, needle, i) && |needle| > 0
    ensures LowerChar(text[i]) == LowerChar(needle[0])
  {
    assert Lower(text[i..i + |needle|])[0] == Lower(needle)[0];
  }

  /** Some position of `text` holds `needle`, ignoring ASCII letter case. */
  ghost predicate Contains(text: string, needle: string) {
    exists i: nat :: OccursAt(text, needle, i)
  }

  /** PHP's `stripos(text, needle, from)`: the first position at or after
      `from` where `needle` occurs ignoring case, or None for `false`. */
  function FindIgnoringCase(text: string, needle: string, from: nat): (r: Option<nat>)
    decreases |text| - from
    ensures r.Some? ==> from <= r.value && OccursAt(text, needle, r.value)
    ensures r.Some? ==> forall j: nat :: from <= j < r.value ==> !OccursAt(text, needle, j)
    ensures r.None? ==> forall j: nat :: from <= j ==> !OccursAt(text, needle, j)
  {
    if from + |needle| > |text| then None
    else if OccursAt(text, needle, from) then Some(from)
    else FindIgnoringCase(text, needle, from + 1)
  }

  /** `stripos(text, needle) !== false` holds exactly when the needle occurs
      somewhere in the text, in any letter case. */
  lemma FindIgnoringCaseDecidesContains(text: string, needle: string)
    ensures FindIgnoringCase(text, needle, 0).Some? <==> Contains(text, needle)
  {
    var r := FindIgnoringCase(text, needle, 0);
    if r.Some? {
      assert OccursAt(text, needle, r.value);
    }
  }
}

=== FILE: mariadb.dfy ===
/** The MariaDB version grammar
    `^(?:5\.5\.5-)?(mariadb-)?(?P<major>\d+)\.(?P<minor>\d+)\.(?P<patch>\d+)`,
    matched case-insensitively, with the order in which a backtracking
    engine tries its two optional groups. */
module MariaDb {
  import opened Wrappers
  import opened Ascii
  import opened Numerals
  import opened Versions

  /** What some MariaDB distributions put in front of the real version. */
  const ServerPrefix := "5.5.5-"

  /** The vendor marker, in lower case; `/i` accepts it in any case. */
  const Marker := "mariadb-"

  predicate IsMarker(t: string) {
    Lower(t) == Marker
  }

  /** `major.minor.patch` as it appears in the string. */
  function Dotted(major: Digits, minor: Digits, patch: Digits): string {
    major + ("." + minor) + ("." + patch)
  }

  /** One way the grammar can match: which optional groups took part (the
      marker with the exact characters it matched) and the three captures. */
  datatype MariaDbMatch = MariaDbMatch(serverPrefix: bool, marker: Option<string>, major: Digits, minor: Digits, patch: Digits) {

    predicate Valid() {
      marker.Some? ==> IsMarker(marker.value)
    }

    /** The text consumed by the server-prefix group. */
    function PrefixText(): string {
      if serverPrefix then ServerPrefix else ""
    }

    /** The text consumed after the server-prefix group. */
    function Body(): string {
      marker.GetOr("") + Dotted(major, minor, patch)
    }

    function Text(): string {
      PrefixText() + Body()
    }

    /** The engine's preference: the server prefix before the marker, each
        tried present before absent. */
    function Rank(): nat {
      (if serverPrefix then 2 else 0) + (if marker.Some? then 1 else 0)
    }

    function Resolved(): Version {
      Versions.Version(Value(major), Value(minor), Value(patch))
    }
  }

  /** `m` is a match of `s` for its choice of optional groups, with the
      patch digits read greedily. */
  ghost predicate Matches(s: string, m: MariaDbMatch) {
    m.Valid() && m.Text() <= s && !StartsWithDigit(s[|m.Text()|..])
  }

  /** The three mandatory components at the head of `s`. */
  function NumbersAt(s: string): (r: Option<(Digits, Digits, Digits)>)
    ensures !StartsWithDigit(s) ==> r.None?
    ensures r.Some? ==> Dotted(r.value.0, r.value.1, r.value.2) <= s
    ensures r.Some? ==> !StartsWithDigit(s[|Dotted(r.value.0, r.value.1, r.value.2)|..])
  {
    var major := NumberAt(s);
    if major.None? then None
    else
      var minor := DottedNumberAt(major.value.1);
      if minor.None? then None
      else
        var patch := DottedNumberAt(minor.value.1);
        if patch.None? then None
        else
          RegroupThree(s, major.value.0, "." + minor.value.0, "." + patch.value.0, major.value.1, minor.value.1, patch.value.1);
          PrefixOfSplit(s, Dotted(major.value.0, minor.value.0, patch.value.0), patch.value.1);
          Some((major.value.0, minor.value.0, patch.value.0))
  }

  lemma NumbersAtReadsTriple(a: Digits, b: Digits, c: Digits, rest: string)
    requires !StartsWithDigit(rest)
    ensures NumbersAt(Dotted(a, b, c) + rest) == Some((a, b, c))
  {
    var s := Dotted(a, b, c) + rest;
    ConcatAssoc("." + b, "." + c, rest);
    ConcatAssoc(a, "." + b + "." + c, rest);
    ConcatAssoc(a, "." + b, "." + c);
    assert s == a + ("." + b + ("." + c + rest));
    NumberAtReadsWholeRun(a, "." + b + ("." + c + rest));
    DottedNumberAtReadsWholeRun(b, "." + c + rest);
    DottedNumberAtReadsWholeRun(c, rest);
  }

  /** `s` is `p` followed by `u`, and `body` starts `u`: then `p + body`
      starts `s` and both leave the same remainder. */
  lemma PrefixedPrefix(s: string, p: string, u: string, body: string)
    requires s == p + u && body <= u
    ensures p + body <= s && s[|p + body|..] == u[|body|..]
  {
    var rest := u[|body|..];
    assert u == body + rest;
    ConcatAssoc(p, body, rest);
    PrefixOfSplit(s, p + body, rest);
  }

  /** The marker group, decided in advance, and the three numbers, read
      from `u`, the text after the server-prefix group. */
  function MarkedNumbersAt(u: string, serverPrefix: bool, marker: bool): (r: Option<MariaDbMatch>)
    ensures r.Some? ==> r.value.Valid() && r.value.serverPrefix == serverPrefix && r.value.marker.Some? == marker
    ensures r.Some? ==> r.value.Body() <= u && !StartsWithDigit(u[|r.value.Body()|..])
  {
    if !marker then
      var numbers := NumbersAt(u);
      if numbers.None? then None
      else
        var m := MariaDbMatch(serverPrefix, None, numbers.value.0, numbers.value.1, numbers.value.2);
        assert m.Body() == Dotted(m.major, m.minor, m.patch);
        Some(m)
    else if |u| < |Marker| || !IsMarker(u[..|Marker|]) then None
    else
      var v := u[|Marker|..];
      var numbers := NumbersAt(v);
      if numbers.None? then None
      else
        var m := MariaDbMatch(serverPrefix, Some(u[..|Marker|]), numbers.value.0, numbers.value.1, numbers.value.2);
        MarkerThenNumbers(u, m);
        Some(m)
  }

  lemma MarkerThenNumbers(u: string, m: MariaDbMatch)
    requires |Marker| <= |u| && m.marker == Some(u[..|Marker|])
    requires Dotted(m.major, m.minor, m.patch) <= u[|Marker|..]
    ensures m.Body() <= u && u[|m.Body()|..] == u[|Marker|..][|Dotted(m.major, m.minor, m.patch)|..]
  {
    assert u == u[..|Marker|] + u[|Marker|..];
    PrefixedPrefix(u, u[..|Marker|], u[|Marker|..], Dotted(m.major, m.minor, m.patch));
  }

  lemma MarkedNumbersAtComplete(u: string, m: MariaDbMatch)
    requires m.Valid() && m.Body() <= u && !StartsWithDigit(u[|m.Body()|..])
    ensures MarkedNumbersAt(u, m.serverPrefix, m.marker.Some?) == Some(m)
  {
    var n := Dotted(m.major, m.minor, m.patch);
    var rest := u[|m.Body()|..];
    assert u == m.Body() + rest;
    if m.marker.Some? {
      var mk := m.marker.value;
      MarkerStartsWithM(mk);
      ConcatAssoc(mk, n, rest);
      PrefixOfSplit(u, mk, n + rest);
      assert u[..|Marker|] == mk;
    } else {
      assert u == n + rest;
    }
    NumbersAtReadsTriple(m.major, m.minor, m.patch, rest);
  }

  /** The grammar with both optional groups decided in advance. */
  function Alternative(s: string, serverPrefix: bool, marker: bool): (r: Option<MariaDbMatch>)
    ensures r.Some? ==> Matches(s, r.value)
    ensures r.Some? ==> r.value.serverPrefix == serverPrefix && r.value.marker.Some? == marker
  {
    var p := if serverPrefix then ServerPrefix else "";
    if !(p <= s) then None
    else
      var u := s[|p|..];
      var r := MarkedNumbersAt(u, serverPrefix, marker);
      if r.None? then None
      else
        assert s == p + u;
        PrefixedPrefix(s, p, u, r.value.Body());
        Some(r.value)
  }

  /** The alternatives that take the server prefix read the rest of the
      string after it. */
  lemma AlternativeAfterServerPrefix(t: string, marker: bool)
    ensures Alternative(ServerPrefix + t, true, marker) == MarkedNumbersAt(t, true, marker)
  {
    PrefixOfSplit(ServerPrefix + t, ServerPrefix, t);
  }

  /** `preg_match` with the grammar above: the first alternative, in the
      engine's order, that matches; none raises `InvalidPlatformVersion`
      carrying the input. */
  function Parse(s: string): (r: Result<MariaDbMatch, InvalidPlatformVersion>)
    ensures r.Failure? ==> r.error == InvalidPlatformVersion(s, MariaDbFormat)
  {
    var both := Alternative(s, true, true);
    var prefixOnly := Alternative(s, true, false);
    var markerOnly := Alternative(s, false, true);
    var neither := Alternative(s, false, false);
    if both.Some? then Success(both.value)
    else if prefixOnly.Some? then Success(prefixOnly.value)
    else if markerOnly.Some? then Success(markerOnly.value)
    else if neither.Some? then Success(neither.value)
    else Failure(InvalidPlatformVersion(s, MariaDbFormat))
  }

  lemma AlternativeComplete(s: string, m: MariaDbMatch)
    requires Matches(s, m)
    ensures Alternative(s, m.serverPrefix, m.marker.Some?) == Some(m)
  {
    var p := m.PrefixText();
    var rest := s[|m.Text()|..];
    assert s == m.Text() + rest;
    ConcatAssoc(p, m.Body(), rest);
    PrefixOfSplit(s, p, m.Body() + rest);
    PrefixOfSplit(m.Body() + rest, m.Body(), rest);
    MarkedNumbersAtComplete(s[|p|..], m);
  }

  /** The parser reports the match of highest preference: whatever it
      returns is a match, no match ranks above it, and any such match is the
      one it returns. */
  lemma ParseIsPreferredMatch(s: string, m: MariaDbMatch)
    ensures Parse(s) == Success(m) <==> Matches(s, m) && forall m' :: Matches(s, m') ==> m'.Rank() <= m.Rank()
  {
    if Parse(s) == Success(m) {
      ParseOutranksEveryMatch(s);
    }
    if Matches(s, m) && forall m' :: Matches(s, m') ==> m'.Rank() <= m.Rank() {
      PreferredMatchIsParsed(s, m);
    }
  }

  lemma ParseOutranksEveryMatch(s: string)
    requires Parse(s).Success?
    ensures Matches(s, Parse(s).value)
    ensures forall m' :: Matches(s, m') ==> m'.Rank() <= Parse(s).value.Rank()
  {
    ParseSound(s);
    forall m' | Matches(s, m')
      ensures m'.Rank() <= Parse(s).value.Rank()
    {
      AlternativeComplete(s, m');
    }
  }

  lemma PreferredMatchIsParsed(s: string, m: MariaDbMatch)
    requires Matches(s, m)
    requires forall m' :: Matches(s, m') ==> m'.Rank() <= m.Rank()
    ensures Parse(s) == Success(m)
  {
    AlternativeComplete(s, m);
    var p, mk := m.serverPrefix, m.marker.Some?;
    ParseFindsEveryAlternative(s, p, mk);
    ParseSound(s);
    var found := Parse(s).value;
    assert found.Rank() <= m.Rank();
    assert found.serverPrefix == p && found.marker.Some? == mk;
  }

  /** Parsing only fails once every alternative has failed. */
  lemma ParseFindsEveryAlternative(s: string, serverPrefix: bool, marker: bool)
    requires Alternative(s, serverPrefix, marker).Some?
    ensures Parse(s).Success?
  {
    var both := Alternative(s, true, true);
    var prefixOnly := Alternative(s, true, false);
    var markerOnly := Alternative(s, false, true);
    var neither := Alternative(s, false, false);
    assert both.Some? || prefixOnly.Some? || markerOnly.Some? || neither.Some?;
  }

  lemma ParseSound(s: string)
    requires Parse(s).Success?
    ensures Matches(s, Parse(s).value)
    ensures Alternative(s, Parse(s).value.serverPrefix, Parse(s).value.marker.Some?) == Some(Parse(s).value)
    ensures Parse(s).value.Rank() < 3 ==> Alternative(s, true, true).None?
    ensures Parse(s).value.Rank() < 2 ==> Alternative(s, true, false).None?
    ensures Parse(s).value.Rank() < 1 ==> Alternative(s, false, true).None?
  {
    var both := Alternative(s, true, true);
    var prefixOnly := Alternative(s, true, false);
    var markerOnly := Alternative(s, false, true);
    if both.Some? {
      assert Parse(s).value == both.value;
    } else if prefixOnly.Some? {
      assert Parse(s).value == prefixOnly.value;
    } else if markerOnly.Some? {
      assert Parse(s).value == markerOnly.value;
    } else {
      assert Parse(s).value == Alternative(s, false, false).value;
    }
  }

  /** Parsing fails exactly when no choice of the optional groups matches. */
  lemma ParseFailsIffNoMatch(s: string)
    ensures Parse(s).Failure? <==> forall m :: !Matches(s, m)
  {
    if Parse(s).Success? {
      ParseSound(s);
    } else {
      forall m | Matches(s, m)
        ensures false
      {
        AlternativeComplete(s, m);
        ParseFindsEveryAlternative(s, m.serverPrefix, m.marker.Some?);
      }
    }
  }

  /** The parser returns a match once every alternative the engine would
      have tried before it has failed. */
  lemma ParseFromAlternatives(s: string, m: MariaDbMatch)
    requires Alternative(s, m.serverPrefix, m.marker.Some?) == Some(m)
    requires m.Rank() < 3 ==> Alternative(s, true, true).None?
    requires m.Rank() < 2 ==> Alternative(s, true, false).None?
    requires m.Rank() < 1 ==> Alternative(s, false, true).None?
    ensures Parse(s) == Success(m)
  {
  }

  /** A marker starts with an `m` in some case, never with a digit. */
  lemma MarkerStartsWithM(t: string)
    requires IsMarker(t)
    ensures |t| == |Marker| && LowerChar(t[0]) == 'm' && !IsDigit(t[0])
  {
    assert Lower(t)[0] == Marker[0];
  }

  /** `5.5.5-MariaDB-10.0.8-xenial` style strings: both optional groups are
      consumed, and the version is the one after the marker. */
  lemma ServerPrefixAndMarkerUnwrapped(marker: string, a: Digits, b: Digits, c: Digits, rest: string)
    requires IsMarker(marker)
    requires !StartsWithDigit(rest)
    ensures Parse(ServerPrefix + marker + Dotted(a, b, c) + rest) == Success(MariaDbMatch(true, Some(marker), a, b, c))
  {
    var s := ServerPrefix + marker + Dotted(a, b, c) + rest;
    var m := MariaDbMatch(true, Some(marker), a, b, c);
    assert m.Text() == ServerPrefix + marker + Dotted(a, b, c);
    PrefixOfSplit(s, m.Text(), rest);
    AlternativeComplete(s, m);
    ParseFromAlternatives(s, m);
  }

  /** When nothing after the server prefix reads as a version, the engine
      backtracks out of the prefix group and the prefix itself, `5.5.5`, is
      the version it reports. */
  lemma ServerPrefixWithoutVersionIsTheVersion(t: string)
    requires NumbersAt(t).None?
    requires !(|t| >= |Marker| && IsMarker(t[..|Marker|]) && NumbersAt(t[|Marker|..]).Some?)
    ensures Parse(ServerPrefix + t) == Success(MariaDbMatch(false, None, "5", "5", "5"))
  {
    var s := ServerPrefix + t;
    var m := MariaDbMatch(false, None, "5", "5", "5");
    assert m.Text() == "5.5.5";
    assert s == "5.5.5" + ("-" + t);
    PrefixOfSplit(s, m.Text(), "-" + t);
    AlternativeComplete(s, m);
    AlternativeAfterServerPrefix(t, true);
    AlternativeAfterServerPrefix(t, false);
    assert s[0] == '5';
    NoMarkerAt(s, false);
    ParseFromAlternatives(s, m);
  }

  /** Two numbers that no third one follows (`10.2-MariaDB`) are no
      version: `\d+\.\d+\.\d+` cannot be read there. */
  lemma TwoNumbersAreNoVersion(a: Digits, b: Digits, rest: string)
    requires !StartsWithDigit(rest) && DottedNumberAt(rest).None?
    ensures NumbersAt(a + "." + b + rest).None?
  {
    var s := a + "." + b + rest;
    assert s == a + ("." + b + rest);
    NumberAtReadsWholeRun(a, "." + b + rest);
    DottedNumberAtReadsWholeRun(b, rest);
  }

  /** Only the matched prefix of the string matters: appending anything
      that does not extend the patch number (`-log`, `-xenial`, ...) to the
      matched text gives the same match.  The one exception is a bare
      `5.5.5` followed by `-`, which would turn the match into a server
      prefix. */
  lemma ParseReadsOnlyPrefix(s: string, tail: string)
    requires Parse(s).Success?
    requires !StartsWithDigit(tail)
    requires Parse(s).value.Rank() > 0 || !(ServerPrefix <= Parse(s).value.Text() + tail)
    ensures Parse(Parse(s).value.Text() + tail) == Parse(s)
  {
    var m := Parse(s).value;
    ParseSound(s);
    var t := m.Text() + tail;
    PrefixOfSplit(t, m.Text(), tail);
    AlternativeComplete(t, m);
    ConcatAssoc(m.PrefixText(), m.Body(), tail);
    LowerRanksFail(t, m, m.Body() + tail);
    ParseFromAlternatives(t, m);
  }

  /** Given a match of `t`, no alternative the engine tries earlier than
      it matches `t`: each would need the server prefix or the marker where
      the match has a digit or an `m`. */
  lemma LowerRanksFail(t: string, m: MariaDbMatch, u: string)
    requires m.Valid() && m.Body() <= u && t == m.PrefixText() + u
    requires m.Rank() > 0 || !(ServerPrefix <= t)
    ensures m.Rank() < 3 ==> Alternative(t, true, true).None?
    ensures m.Rank() < 2 ==> Alternative(t, true, false).None?
    ensures m.Rank() < 1 ==> Alternative(t, false, true).None?
  {
    BodyStart(m);
    assert u[0] == m.Body()[0];
    if m.Rank() == 2 {
      AlternativeAfterServerPrefix(u, true);
      NoMarkerAt(u, true);
    } else if m.Rank() == 1 {
      assert t == u;
      NoServerPrefixAtM(t);
      NoAlternativeWithoutPrefix(t, true);
      NoAlternativeWithoutPrefix(t, false);
    } else if m.Rank() == 0 {
      assert t == u;
      NoAlternativeWithoutPrefix(t, true);
      NoAlternativeWithoutPrefix(t, false);
      NoMarkerAt(t, false);
    }
  }

  /** What the text after the server-prefix group starts with: an `m` in
      some case when the marker took part, a digit otherwise. */
  lemma BodyStart(m: MariaDbMatch)
    requires m.Valid()
    ensures |m.Body()| > 0
    ensures m.marker.Some? ==> LowerChar(m.Body()[0]) == 'm'
    ensures m.marker.None? ==> IsDigit(m.Body()[0])
  {
    if m.marker.Some? {
      MarkerStartsWithM(m.marker.value);
      assert m.Body()[0] == m.marker.value[0];
    } else {
      assert m.Body()[0] == m.major[0];
    }
  }

  lemma NoAlternativeWithoutPrefix(s: string, marker: bool)
    requires !(ServerPrefix <= s)
    ensures Alternative(s, true, marker).None?
  {
  }

  /** The marker group cannot take part where the text does not start
      with an `m`. */
  lemma NoMarkerAt(u: string, serverPrefix: bool)
    requires |u| > 0 && LowerChar(u[0]) != 'm'
    ensures MarkedNumbersAt(u, serverPrefix, true).None?
  {
    if |u| >= |Marker| && IsMarker(u[..|Marker|]) {
      MarkerStartsWithM(u[..|Marker|]);
    }
  }

  lemma NoServerPrefixAtM(t: string)
    requires |t| > 0 && LowerChar(t[0]) == 'm'
    ensures !(ServerPrefix <= t)
  {
  }

  /** Every alternative starts with the server prefix, the marker or a
      digit, so a match needs a string that starts with a digit or an `m`. */
  lemma ParseNeedsDigitOrMarker(s: string)
    requires Parse(s).Success?
    ensures |s| > 0 && (IsDigit(s[0]) || LowerChar(s[0]) == 'm')
  {
    var m := Parse(s).value;
    ParseSound(s);
    assert s[0] == m.Text()[0];
    if m.serverPrefix {
      assert m.Text()[0] == '5';
    } else {
      BodyStart(m);
      assert m.Text()[0] == m.Body()[0];
    }
  }
}

=== FILE: mysql_driver.dfy ===
/** `AbstractMySQLDriver::createDatabasePlatformForVersion`: the server's
    self-reported version string decides which MySQL platform variant the
    connection speaks. */
module MySqlDriver {
  import opened Wrappers
  import opened Ascii
  import opened Numerals
  import opened Versions
  import OracleMySql
  import MariaDb

  /** The platform classes the driver can hand out, as tags. */
  datatype Platform =
    | MySql        // MySqlPlatform, the driver's default
    | MySQL57      // MySQL57Platform
    | MySQL80      // MySQL80Platform
    | MariaDb1027  // MariaDb1027Platform

  /** `getDatabasePlatform`: the platform used when no variant applies. */
  function DatabasePlatform(): Platform {
    MySql
  }

  const VendorName := "mariadb"

  /** `stripos($version, 'mariadb') !== false`. */
  predicate IsMariaDb(version: string) {
    FindIgnoringCase(version, VendorName, 0).Some?
  }

  function CreatePlatformForVersion(version: string): (r: Result<Platform, InvalidPlatformVersion>)
    ensures r.Failure? ==> r.error.version == version
    ensures r.Failure? ==> (r.error.expected == MariaDbFormat <==> IsMariaDb(version))
    ensures IsMariaDb(version) ==> r != Success(MySQL80) && r != Success(MySQL57)
    ensures !IsMariaDb(version) ==> r != Success(MariaDb1027)
  {
    if IsMariaDb(version) then
      var parsed :- MariaDb.Parse(version);
      if AtLeast(parsed.Resolved(), MariaDb1027Version) then Success(MariaDb1027)
      else Success(DatabasePlatform())
    else
      var parsed :- OracleMySql.Parse(version);
      var v := OracleMySql.Normalize(parsed).Compared();
      if AtLeast(v, MySQL80Version) then Success(MySQL80)
      else if AtLeast(v, MySQL57Version) then Success(MySQL57)
      else Success(DatabasePlatform())
  }

  /** A version string is a MariaDB one exactly when `mariadb` occurs in it
      in any letter case. */
  lemma VendorDetection(version: string)
    ensures IsMariaDb(version) <==> Contains(version, VendorName)
  {
    FindIgnoringCaseDecidesContains(version, VendorName);
  }

  /** A string without ASCII letters can never name the vendor. */
  lemma NoLetterNoVendor(version: string)
    requires forall i :: 0 <= i < |version| ==> !IsLetter(version[i])
    ensures !IsMariaDb(version)
  {
    var r := FindIgnoringCase(version, VendorName, 0);
    if r.Some? {
      OccursAtHead(version, VendorName, r.value);
    }
  }

  /** The MariaDB path: the string must match the MariaDB grammar, and only
      a version of at least 10.2.7 gets its own platform; anything lower
      falls back to the default. */
  lemma MariaDbOutcomes(version: string)
    requires IsMariaDb(version)
    ensures CreatePlatformForVersion(version).Failure? <==> MariaDb.Parse(version).Failure?
    ensures CreatePlatformForVersion(version) == Success(MariaDb1027) <==>
      MariaDb.Parse(version).Success? && AtLeast(MariaDb.Parse(version).value.Resolved(), MariaDb1027Version)
    ensures CreatePlatformForVersion(version) == Success(MySql) <==>
      MariaDb.Parse(version).Success? && !AtLeast(MariaDb.Parse(version).value.Resolved(), MariaDb1027Version)
  {
  }

  /** The Oracle path: a major of 8 or more selects MySQL80; otherwise the
      normalised version decides between MySQL57 (from 5.7.9 on) and the
      default.  The three outcomes exclude one another. */
  lemma OracleOutcomes(version: string)
    requires !IsMariaDb(version)
    requires OracleMySql.Parse(version).Success?
    ensures var v := OracleMySql.Normalize(OracleMySql.Parse(version).value);
      && (CreatePlatformForVersion(version) == Success(MySQL80) <==> v.major >= 8)
      && (CreatePlatformForVersion(version) == Success(MySQL57) <==> v.major < 8 && AtLeast(v.Compared(), MySQL57Version))
      && (CreatePlatformForVersion(version) == Success(MySql) <==> v.major < 8 && !AtLeast(v.Compared(), MySQL57Version))
  {
    MySQL80ThresholdIsMajor(OracleMySql.Normalize(OracleMySql.Parse(version).value).Compared());
  }

  /** On the Oracle path the only error is a string that does not start
      with a digit. */
  lemma OracleFailure(version: string)
    requires !IsMariaDb(version)
    ensures CreatePlatformForVersion(version).Failure? <==> !StartsWithDigit(version)
  {
  }

  /** A bare `5.7`, whatever non-numeric text follows, selects MySQL57. */
  lemma BareFiveSevenSelectsMySQL57(tail: string)
    requires !IsMariaDb("5.7" + tail)
    requires !StartsWithDigit(tail) && !StartsWithDottedDigit(tail)
    ensures CreatePlatformForVersion("5.7" + tail) == Success(MySQL57)
  {
    var s := "5.7" + tail;
    var m := OracleMySql.OracleMatch("5", Some("7"), None);
    assert "5" + ("." + "7") == "5.7";
    OracleMySql.ParseMajorMinor("5", "7", tail);
    assert OracleMySql.Parse(s) == Success(m);
    assert OracleMySql.IsBareFiveSeven(m);
    OracleOutcomes(s);
  }

  /** `5.7.10` is a MySQL 5.7 server. */
  lemma MySQL57Example(version: string)
    requires version == "5.7.10"
    ensures CreatePlatformForVersion(version) == Success(MySQL57)
  {
    assert Value("10") == 10 by {
      assert "10"[..1] == "1";
    }
    OracleTripleDecides(version, "5", "7", "10", MySQL57);
  }

  /** A bare `5.7` is a MySQL 5.7 server too. */
  lemma BareFiveSevenExample(version: string)
    requires version == "5.7"
    ensures CreatePlatformForVersion(version) == Success(MySQL57)
  {
    NoLetterNoVendor(version);
    assert version + "" == version;
    BareFiveSevenSelectsMySQL57("");
  }

  /** `5.6.99` is below 5.7.9 and gets the default platform. */
  lemma BelowMySQL57Example(version: string)
    requires version == "5.6.99"
    ensures CreatePlatformForVersion(version) == Success(MySql)
  {
    assert Value("99") == 99 by {
      assert "99"[..1] == "9";
    }
    OracleTripleDecides(version, "5", "6", "99", MySql);
  }

  /** `05.7` has the value of a bare 5.7 but not its text, so it gets no
      synthetic patch and stays below 5.7.9. */
  lemma PaddedFiveSevenExample(version: string)
    requires version == "05.7"
    ensures CreatePlatformForVersion(version) == Success(MySql)
  {
    assert Value("05") == 5 by {
      assert "0" + "5" == "05";
      LeadingZeroKeepsValue("5");
    }
    assert "05" + ("." + "7") == version;
    OraclePairDecides(version, "05", "7", MySql);
  }

  /** A `major.minor` string, other than a bare `5.7`, is decided by its two numbers with the patch read as 0. */
  lemma OraclePairDecides(version: string, major: Digits, minor: Digits, expected: Platform)
    requires version == major + ("." + minor)
    requires !(major == "5" && minor == "7")
    requires var v := Versions.Version(Value(major), Value(minor), 0);
      expected == if v.major >= 8 then MySQL80 else if AtLeast(v, MySQL57Version) then MySQL57 else MySql
    ensures CreatePlatformForVersion(version) == Success(expected)
  {
    PairNamesNoVendor(major, minor);
    assert version + "" == version;
    OracleMySql.ParseMajorMinor(major, minor, "");
    var m := OracleMySql.OracleMatch(major, Some(minor), None);
    assert !OracleMySql.IsBareFiveSeven(m);
    OracleOutcomes(version);
  }

  /** `8.0.1` is a MySQL 8 server. */
  lemma MySQL80Example(version: string)
    requires version == "8.0.1"
    ensures CreatePlatformForVersion(version) == Success(MySQL80)
  {
    OracleTripleDecides(version, "8", "0", "1", MySQL80);
  }

  /** A string that starts with neither a digit nor an `m` matches neither
      grammar, whichever vendor it names. */
  lemma InvalidExample(version: string)
    requires version == "not-a-version"
    ensures CreatePlatformForVersion(version).Failure?
  {
    if IsMariaDb(version) && MariaDb.Parse(version).Success? {
      MariaDb.ParseNeedsDigitOrMarker(version);
    }
  }

  /** A full `major.minor.patch` string is decided by its three numbers
      alone. */
  lemma OracleTripleDecides(version: string, major: Digits, minor: Digits, patch: Digits, expected: Platform)
    requires version == major + ("." + minor) + ("." + patch)
    requires var v := Versions.Version(Value(major), Value(minor), Value(patch));
      expected == if v.major >= 8 then MySQL80 else if AtLeast(v, MySQL57Version) then MySQL57 else MySql
    ensures CreatePlatformForVersion(version) == Success(expected)
  {
    FullVersionParse(version, major, minor, patch);
    var m := OracleMySql.OracleMatch(major, Some(minor), Some(patch));
    assert OracleMySql.Normalize(m) == OracleMySql.OracleVersion(Value(major), Value(minor), Some(Value(patch)));
    OracleOutcomes(version);
  }

  lemma FullVersionParse(version: string, major: Digits, minor: Digits, patch: Digits)
    requires version == major + ("." + minor) + ("." + patch)
    ensures !IsMariaDb(version)
    ensures OracleMySql.Parse(version) == Success(OracleMySql.OracleMatch(major, Some(minor), Some(patch)))
  {
    TripleNamesNoVendor(major, minor, patch);
    assert version + "" == version;
    OracleMySql.ParseMajorMinorPatch(major, minor, patch, "");
  }

  /** Digits and dots hold no letter, so they never name the vendor. */
  lemma NumbersNameNoVendor(version: string, head: string, last: Digits)
    requires forall i :: 0 <= i < |head| ==> IsDigit(head[i]) || head[i] == '.'
    requires version == head + last
    ensures !IsMariaDb(version)
  {
    forall i | 0 <= i < |version|
      ensures !IsLetter(version[i])
    {
      if i >= |head| {
        assert version[i] == last[i - |head|];
      }
    }
    NoLetterNoVendor(version);
  }

  /** An `a.b` of digit runs takes the Oracle path. */
  lemma PairNamesNoVendor(major: Digits, minor: Digits)
    ensures !IsMariaDb(major + ("." + minor))
  {
    NumbersNameNoVendor(major + ("." + minor), major + ".", minor);
  }

  /** An `a.b.c` of digit runs takes the Oracle path. */
  lemma TripleNamesNoVendor(major: Digits, minor: Digits, patch: Digits)
    ensures !IsMariaDb(major + ("." + minor) + ("." + patch))
  {
    var head := major + ("." + minor) + ".";
    assert forall i :: 0 <= i < |head| ==> IsDigit(head[i]) || head[i] == '.';
    NumbersNameNoVendor(major + ("." + minor) + ("." + patch), head, patch);
  }

  /** `mariadb` found at a known position marks the string as MariaDB. */
  lemma VendorAt(version: string, i: nat)
    requires OccursAt(version, VendorName, i)
    ensures IsMariaDb(version)
  {
  }

  /** `5.5.5-`, a marker in any letter case and `a.b.c` followed by a
      non-digit: `a.b.c` alone decides against 10.2.7. */
  lemma MarkedMariaDbDecides(version: string, marker: string, a: Digits, b: Digits, c: Digits, rest: string, expected: Platform)
    requires MariaDb.IsMarker(marker) && !StartsWithDigit(rest)
    requires version == MariaDb.ServerPrefix + marker + MariaDb.Dotted(a, b, c) + rest
    requires expected == if AtLeast(Versions.Version(Value(a), Value(b), Value(c)), MariaDb1027Version) then MariaDb1027 else MySql
    ensures CreatePlatformForVersion(version) == Success(expected)
  {
    MariaDb.MarkerStartsWithM(marker);
    assert version[6..13] == marker[..7];
    assert Lower(version[6..13]) == Lower(marker)[..7] == VendorName;
    VendorAt(version, 6);
    MariaDb.ServerPrefixAndMarkerUnwrapped(marker, a, b, c, rest);
  }

  /** The `5.5.5-` packaging prefix is unwrapped: the version that decides
      is the one after the marker, not 5.5.5, here 10.0.8 below 10.2.7. */
  lemma ServerPrefixOldMariaDbExample(version: string)
    requires version == "5.5.5-MariaDB-10.0.8-xenial"
    ensures CreatePlatformForVersion(version) == Success(MySql)
  {
    XenialShape(version, "10", "0", "8");
    CapitalisedMarker();
    MarkedMariaDbDecides(version, "MariaDB-", "10", "0", "8", "-xenial", MySql);
  }

  /** As above, with 10.2.7 after the marker: the MariaDB 10.2.7 platform. */
  lemma ServerPrefixMariaDb1027Example(version: string)
    requires version == "5.5.5-MariaDB-10.2.7-xenial"
    ensures CreatePlatformForVersion(version) == Success(MariaDb1027)
  {
    XenialShape(version, "10", "2", "7");
    CapitalisedMarker();
    assert Value("10") == 10 by {
      assert "10"[..1] == "1";
    }
    MarkedMariaDbDecides(version, "MariaDB-", "10", "2", "7", "-xenial", MariaDb1027);
  }

  /** How a `5.5.5-MariaDB-a.b.c-xenial` string splits into the pieces of
      the MariaDB grammar. */
  lemma XenialShape(version: string, a: Digits, b: Digits, c: Digits)
    requires version == "5.5.5-MariaDB-" + MariaDb.Dotted(a, b, c) + "-xenial"
    ensures version == MariaDb.ServerPrefix + "MariaDB-" + MariaDb.Dotted(a, b, c) + "-xenial"
  {
    var lead := "5.5.5-MariaDB-";
    assert lead == MariaDb.ServerPrefix + "MariaDB-";
  }

  lemma CapitalisedMarker()
    ensures MariaDb.IsMarker("MariaDB-")
  {
  }

  /** `MariaDB`, as servers spell it, names the vendor. */
  lemma CapitalisedVendorAt(version: string, i: nat)
    requires i + 7 <= |version| && version[i..i + 7] == "MariaDB"
    ensures IsMariaDb(version)
  {
    assert Lower("MariaDB") == VendorName;
    VendorAt(version, i);
  }

  /** A MariaDB string whose server prefix is followed by no version falls
      back to 5.5.5, which is below 10.2.7. */
  lemma ServerPrefixWithoutVersionSelectsDefault(t: string)
    requires IsMariaDb(MariaDb.ServerPrefix + t)
    requires MariaDb.NumbersAt(t).None?
    requires !(|t| >= |MariaDb.Marker| && MariaDb.IsMarker(t[..|MariaDb.Marker|]) && MariaDb.NumbersAt(t[|MariaDb.Marker|..]).Some?)
    ensures CreatePlatformForVersion(MariaDb.ServerPrefix + t) == Success(MySql)
  {
    MariaDb.ServerPrefixWithoutVersionIsTheVersion(t);
    MariaDbOutcomes(MariaDb.ServerPrefix + t);
  }

  /** With nothing after `5.5.5-MariaDB` to read as a version, the engine
      backtracks and 5.5.5 itself is the version: the default platform. */
  lemma BacktrackingExample(version: string)
    requires version == "5.5.5-MariaDB"
    ensures CreatePlatformForVersion(version) == Success(MySql)
  {
    CapitalisedVendorAt(version, 6);
    assert version == MariaDb.ServerPrefix + "MariaDB";
    ServerPrefixWithoutVersionSelectsDefault("MariaDB");
  }
}

=== FILE: numerals.dfy ===
/** Decimal numerals as the version regexes capture them: `\d+` is a
    non-empty run of ASCII digits, and PCRE's greedy matching makes every
    captured run maximal.  The captured text is kept, because
    `getOracleMysqlVersionNumber` compares it as text as well as by value. */
module Numerals {
  import opened Ascii
  import opened Wrappers

  predicate AllDigits(s: string) {
    forall i :: 0 <= i < |s| ==> IsDigit(s[i])
  }

  /** The text of one `\d+` capture. */
  type Digits = s: string | |s| > 0 && AllDigits(s) witness "0"

  predicate StartsWithDigit(s: string) {
    |s| > 0 && IsDigit(s[0])
  }

  /** A dot directly followed by a digit: what `\.\d+` needs to start. */
  predicate StartsWithDottedDigit(s: string) {
    |s| > 1 && s[0] == '.' && IsDigit(s[1])
  }

  /** Length of the maximal digit run at the head of `s`. */
  function DigitRun(s: string): (n: nat)
    ensures n <= |s|
    ensures AllDigits(s[..n])
    ensures !StartsWithDigit(s[n..])
  {
    if StartsWithDigit(s) then
      var n := 1 + DigitRun(s[1..]);
      assert s[..n] == [s[0]] + s[1..][..n - 1];
      assert s[n..] == s[1..][n - 1..];
      n
    else 0
  }

  /** Regrouping concatenations; stated once so that proofs about captured
      texts need not rediscover it. */
  lemma ConcatAssoc(a: string, b: string, c: string)
    ensures a + (b + c) == a + b + c
    ensures a + b + "" == a + b
  {
  }

  lemma RegroupThree(s: string, a: string, b: string, c: string, afterA: string, afterB: string, afterC: string)
    requires s == a + afterA && afterA == b + afterB && afterB == c + afterC
    ensures s == a + b + c + afterC
  {
    ConcatAssoc(b, c, afterC);
    ConcatAssoc(a, b + c, afterC);
    ConcatAssoc(a, b, c);
  }

  /** A string split into a head and a rest has the head as a prefix. */
  lemma PrefixOfSplit(s: string, head: string, rest: string)
    requires s == head + rest
    ensures head <= s && s[|head|..] == rest
  {
    assert s[..|head|] == head;
  }

  /** Greedy `\d+` at the head of `s`: the captured run and the rest. */
  function NumberAt(s: string): (r: Option<(Digits, string)>)
    ensures r.None? <==> !StartsWithDigit(s)
    ensures r.Some? ==> r.value.0 + r.value.1 == s && !StartsWithDigit(r.value.1)
  {
    var n := DigitRun(s);
    if n == 0 then None
    else
      assert s[..n] + s[n..] == s;
      Some((s[..n], s[n..]))
  }

  /** Greedy `\.\d+` at the head of `s`: the captured run and the rest. */
  function DottedNumberAt(s: string): (r: Option<(Digits, string)>)
    ensures r.None? <==> !StartsWithDottedDigit(s)
    ensures r.Some? ==> "." + r.value.0 + r.value.1 == s && !StartsWithDigit(r.value.1)
  {
    if |s| > 0 && s[0] == '.' then
      var r := NumberAt(s[1..]);
      assert r.Some? ==> "." + r.value.0 + r.value.1 == [s[0]] + s[1..] == s;
      r
    else None
  }

  /** Greedy matching is forced: a digit run followed by a non-digit is
      exactly what `\d+` captures, whatever follows it. */
  lemma NumberAtReadsWholeRun(d: Digits, rest: string)
    requires !StartsWithDigit(rest)
    ensures NumberAt(d + rest) == Some((d, rest))
  {
    var s := d + rest;
    var r := NumberAt(s);
    var (d', rest') := r.value;
    assert |rest| > 0 ==> s[|d|] == rest[0];
    assert |d'| == |d|;
    assert d' == s[..|d|] == d;
    assert rest' == s[|d|..] == rest;
  }

  lemma DottedNumberAtReadsWholeRun(d: Digits, rest: string)
    requires !StartsWithDigit(rest)
    ensures DottedNumberAt("." + d + rest) == Some((d, rest))
  {
    var s := "." + d + rest;
    assert s[1..] == d + rest;
    NumberAtReadsWholeRun(d, rest);
  }

  function DigitValue(c: char): (v: nat)
    requires IsDigit(c)
    ensures v < 10
  {
    c as int - '0' as int
  }

  /** The numeric value of a digit string, as `strtol` reads a captured
      version component. */
  function Value(d: string): nat
    requires AllDigits(d)
  {
    if d == [] then 0 else 10 * Value(d[..|d| - 1]) + DigitValue(d[|d| - 1])
  }

  /** Leading zeros do not change the value, so `05` and `5` compare equal
      as numbers although they differ as text. */
  lemma {:induction false} LeadingZeroKeepsValue(d: string)
    requires AllDigits(d)
    ensures Value("0" + d) == Value(d)
    decreases |d|
  {
    if d != [] {
      var z := "0" + d;
      assert z[..|z| - 1] == "0" + d[..|d| - 1];
      LeadingZeroKeepsValue(d[..|d| - 1]);
    }
  }
}

=== FILE: oracle_mysql.dfy ===
/** The Oracle MySQL version grammar `^(?P<major>\d+)(?:\.(?P<minor>\d+)(?:\.(?P<patch>\d+))?)?`
    and the normalisation that turns its captures into a comparable version. */
module OracleMySql {
  import opened Wrappers
  import opened Numerals
  import opened Versions

  /** The captures of one match.  The patch group is nested inside the
      minor group, so a patch is only ever captured together with a minor. */
  datatype OracleMatch = OracleMatch(major: Digits, minor: Option<Digits>, patch: Option<Digits>) {

    predicate Valid() {
      patch.Some? ==> minor.Some?
    }

    /** The text the match consumed. */
    function Text(): string {
      major
      + (if minor.Some? then "." + minor.value else "")
      + (if patch.Some? then "." + patch.value else "")
    }
  }

  /** `m` is the match PCRE reports for `s`: it consumes a prefix of `s`,
      and greedy matching leaves nothing after it that the grammar could
      still have consumed (another digit, or a `.digit` while the patch
      group is still open). */
  ghost predicate Matches(s: string, m: OracleMatch) {
    && m.Valid()
    && m.Text() <= s
    && !StartsWithDigit(s[|m.Text()|..])
    && (m.patch.None? ==> !StartsWithDottedDigit(s[|m.Text()|..]))
  }

  /** `preg_match` with the grammar above; no match raises
      `InvalidPlatformVersion` carrying the input. */
  function Parse(s: string): (r: Result<OracleMatch, InvalidPlatformVersion>)
    ensures r.Failure? <==> !StartsWithDigit(s)
    ensures r.Failure? ==> r.error == InvalidPlatformVersion(s, OracleFormat)
  {
    var major := NumberAt(s);
    if major.None? then Failure(InvalidPlatformVersion(s, OracleFormat))
    else
      var minor := DottedNumberAt(major.value.1);
      if minor.None? then Success(OracleMatch(major.value.0, None, None))
      else
        var patch := DottedNumberAt(minor.value.1);
        if patch.None? then Success(OracleMatch(major.value.0, Some(minor.value.0), None))
        else Success(OracleMatch(major.value.0, Some(minor.value.0), Some(patch.value.0)))
  }

  /** The parser finds exactly the greedy match: whatever it returns is a
      match of `s`, and any match of `s` is what it returns. */
  lemma ParseIsGreedyMatch(s: string, m: OracleMatch)
    ensures Parse(s) == Success(m) <==> Matches(s, m)
  {
    if Parse(s) == Success(m) {
      ParseSound(s);
    }
    if Matches(s, m) {
      ParseComplete(s, m);
    }
  }

  /** A match is a valid capture set followed by text it cannot continue into. */
  lemma MatchesOfSplit(s: string, m: OracleMatch, rest: string)
    requires m.Valid() && s == m.Text() + rest
    requires !StartsWithDigit(rest)
    requires m.patch.None? ==> !StartsWithDottedDigit(rest)
    ensures Matches(s, m)
  {
    assert s[..|m.Text()|] == m.Text();
    assert s[|m.Text()|..] == rest;
  }

  lemma ParseSound(s: string)
    requires Parse(s).Success?
    ensures Matches(s, Parse(s).value)
  {
    var m := Parse(s).value;
    var major, afterMajor := NumberAt(s).value.0, NumberAt(s).value.1;
    var minor := DottedNumberAt(afterMajor);
    if minor.None? {
      assert m.Text() == major + "" + "";
      MatchesOfSplit(s, m, afterMajor);
    } else {
      var mi, afterMinor := minor.value.0, minor.value.1;
      var patch := DottedNumberAt(afterMinor);
      if patch.None? {
        assert m.Text() == major + ("." + mi) + "";
        ConcatAssoc(major, "." + mi, afterMinor);
        MatchesOfSplit(s, m, afterMinor);
      } else {
        var pa, afterPatch := patch.value.0, patch.value.1;
        assert m.Text() == major + ("." + mi) + ("." + pa);
        RegroupThree(s, major, "." + mi, "." + pa, afterMajor, afterMinor, afterPatch);
        MatchesOfSplit(s, m, afterPatch);
      }
    }
  }

  lemma ParseComplete(s: string, m: OracleMatch)
    requires Matches(s, m)
    ensures Parse(s) == Success(m)
  {
    var rest := s[|m.Text()|..];
    assert s == m.Text() + rest;
    if m.minor.None? {
      assert m.Text() == m.major;
      ParseMajor(m.major, rest);
    } else if m.patch.None? {
      assert m.Text() == m.major + ("." + m.minor.value);
      ParseMajorMinor(m.major, m.minor.value, rest);
    } else {
      ParseMajorMinorPatch(m.major, m.minor.value, m.patch.value, rest);
    }
  }

  /** A major number alone, followed by text the grammar cannot continue into. */
  lemma ParseMajor(major: Digits, rest: string)
    requires !StartsWithDigit(rest) && !StartsWithDottedDigit(rest)
    ensures Parse(major + rest) == Success(OracleMatch(major, None, None))
  {
    NumberAtReadsWholeRun(major, rest);
  }

  /** `major.minor`, followed by text the grammar cannot continue into. */
  lemma ParseMajorMinor(major: Digits, minor: Digits, rest: string)
    requires !StartsWithDigit(rest) && !StartsWithDottedDigit(rest)
    ensures Parse(major + ("." + minor) + rest) == Success(OracleMatch(major, Some(minor), None))
  {
    ConcatAssoc(major, "." + minor, rest);
    NumberAtReadsWholeRun(major, "." + minor + rest);
    DottedNumberAtReadsWholeRun(minor, rest);
  }

  /** `major.minor.patch`, followed by anything but another digit. */
  lemma ParseMajorMinorPatch(major: Digits, minor: Digits, patch: Digits, rest: string)
    requires !StartsWithDigit(rest)
    ensures Parse(major + ("." + minor) + ("." + patch) + rest) == Success(OracleMatch(major, Some(minor), Some(patch)))
  {
    var afterMinor := "." + patch + rest;
    var afterMajor := "." + minor + afterMinor;
    ConcatAssoc("." + minor, "." + patch, rest);
    ConcatAssoc(major, "." + minor + ("." + patch), rest);
    ConcatAssoc(major, "." + minor, "." + patch);
    assert major + ("." + minor) + ("." + patch) + rest == major + afterMajor;
    NumberAtReadsWholeRun(major, afterMajor);
    DottedNumberAtReadsWholeRun(minor, afterMinor);
    DottedNumberAtReadsWholeRun(patch, rest);
  }

  /** Only the consumed prefix matters: any text after it that the grammar
      cannot continue into (`-log`, `-debug`, ...) leaves the match alone. */
  lemma ParseReadsOnlyPrefix(s: string, tail: string)
    requires Parse(s).Success?
    requires !StartsWithDigit(tail)
    requires Parse(s).value.patch.None? ==> !StartsWithDottedDigit(tail)
    ensures Parse(Parse(s).value.Text() + tail) == Parse(s)
  {
    var m := Parse(s).value;
    ParseSound(s);
    var t := m.Text() + tail;
    assert t[|m.Text()|..] == tail;
    ParseComplete(t, m);
  }

  /** The captures after `?? 0` / `?? null`: minor defaults to 0, an absent
      patch stays absent except for a bare `5.7`, which reads as `5.7.9`. */
  datatype OracleVersion = OracleVersion(major: nat, minor: nat, patch: Option<nat>) {

    /** The triple `version_compare` sees; an absent patch compares as 0. */
    function Compared(): Version {
      Version(major, minor, patch.GetOr(0))
    }
  }

  /** The synthetic patch only applies when the captured TEXTS are `5` and
      `7`: `05.7` or `5.07` keep an absent patch. */
  predicate IsBareFiveSeven(m: OracleMatch) {
    m.major == "5" && m.minor == Some("7") && m.patch.None?
  }

  function Normalize(m: OracleMatch): (v: OracleVersion)
    ensures v.major == Value(m.major)
    ensures v.minor == if m.minor.Some? then Value(m.minor.value) else 0
    ensures m.patch.Some? ==> v.patch == Some(Value(m.patch.value))
    ensures m.patch.None? ==> (v.patch.Some? <==> IsBareFiveSeven(m))
  {
    var minor := if m.minor.Some? then Value(m.minor.value) else 0;
    var patch :=
      if m.patch.Some? then Some(Value(m.patch.value))
      else if IsBareFiveSeven(m) then Some(9)
      else None;
    OracleVersion(Value(m.major), minor, patch)
  }

  /** A bare `5.7` is placed at the first release of the 5.7 line that the
      MySQL57 platform serves, and no other capture is moved up. */
  lemma BareFiveSevenMeetsMySQL57(m: OracleMatch)
    ensures IsBareFiveSeven(m) ==> Normalize(m).Compared() == MySQL57Version
    ensures !IsBareFiveSeven(m) ==> Normalize(m).Compared().patch == if m.patch.Some? then Value(m.patch.value) else 0
  {
  }
}

=== FILE: schema.dfy ===
/** Whether a foreign key's local columns overlap an index's columns.  Column
    names are compared as identifiers: one surrounding pair of backticks is
    the platform's quoting and is ignored, and so is ASCII letter case. */
module Schema {
  import opened Ascii

  /** An index over some columns of a table. */
  datatype Index = Index(name: string, columns: seq<string>)

  /** A foreign key: local columns referencing columns of a foreign table. */
  datatype ForeignKeyConstraint = ForeignKeyConstraint(localColumns: seq<string>, foreignTable: string, foreignColumns: seq<string>)

  const Backtick := '`'

  /** `name` is written between backticks. */
  predicate IsQuoted(name: string) {
    |name| >= 2 && name[0] == Backtick && name[|name| - 1] == Backtick
  }

  /** `name` with one surrounding pair of backticks removed, if it has one. */
  function Unquote(name: string): (r: string)
    ensures IsQuoted(name) ==> [Backtick] + r + [Backtick] == name
    ensures !IsQuoted(name) ==> r == name
  {
    if IsQuoted(name) then name[1..|name| - 1] else name
  }

  /** `name` between backticks. */
  function Quote(name: string): (r: string)
    ensures IsQuoted(r) && Unquote(r) == name
  {
    var r := [Backtick] + name + [Backtick];
    assert r[1..|r| - 1] == name;
    r
  }

  /** The form in which two column names are compared: the name without
      its surrounding backticks, each letter in lower case. */
  function Normalize(name: string): (r: string)
    ensures forall i :: 0 <= i < |r| ==> !IsUpper(r[i])
    ensures |r| == |name| - 2 * (if IsQuoted(name) then 1 else 0)
  {
    Lower(Unquote(name))
  }

  /** The compared form character by character: each character of the
      name inside its backticks, if it has them, lower-cased. */
  lemma NormalizeSpelledOut(name: string)
    ensures IsQuoted(name) ==> forall i :: 0 <= i < |Normalize(name)| ==> Normalize(name)[i] == LowerChar(name[i + 1])
    ensures !IsQuoted(name) ==> forall i :: 0 <= i < |Normalize(name)| ==> Normalize(name)[i] == LowerChar(name[i])
  {
    if IsQuoted(name) {
      var u := name[1..|name| - 1];
      assert Unquote(name) == u;
      assert forall i :: 0 <= i < |u| ==> u[i] == name[i + 1];
    }
  }

  /** Two names compare alike exactly when, backticks removed, they agree
      letter by letter up to case: names that differ otherwise stay apart. */
  lemma AlikeIffSameLettersIgnoringCase(a: string, b: string)
    ensures Normalize(a) == Normalize(b) <==>
      |Unquote(a)| == |Unquote(b)| &&
      forall i :: 0 <= i < |Unquote(a)| ==> LowerChar(Unquote(a)[i]) == LowerChar(Unquote(b)[i])
  {
  }

  /** The compared forms of a list of column names. */
  function NormalizedSet(names: seq<string>): (r: set<string>)
    ensures forall i :: 0 <= i < |names| ==> Normalize(names[i]) in r
    ensures forall n :: n in r ==> exists i :: 0 <= i < |names| && Normalize(names[i]) == n
  {
    set name | name in names :: Normalize(name)
  }

  /** Reference meaning of the overlap test: the two lists of columns,
      normalised, have a name in common. */
  predicate Intersects(localColumns: seq<string>, indexColumns: seq<string>) {
    NormalizedSet(localColumns) * NormalizedSet(indexColumns) != {}
  }

  /** `ForeignKeyConstraint::intersectsIndexColumns`, as a scan over pairs
      of an index column and a local column that stops at the first pair
      naming the same column. */
  method IntersectsIndexColumns(fk: ForeignKeyConstraint, index: Index) returns (r: bool)
    ensures r <==> Intersects(fk.localColumns, index.columns)
  {
    var local := fk.localColumns;
    var columns := index.columns;
    var j := 0;
    while j < |columns|
      invariant 0 <= j <= |columns|
      invariant forall j', i :: 0 <= j' < j && 0 <= i < |local| ==> Normalize(local[i]) != Normalize(columns[j'])
    {
      var wanted := Normalize(columns[j]);
      var i := 0;
      while i < |local|
        invariant 0 <= i <= |local|
        invariant forall i' :: 0 <= i' < i ==> Normalize(local[i']) != wanted
      {
        if Normalize(local[i]) == wanted {
          SharedColumnIntersects(local, columns, i, j);
          return true;
        }
        i := i + 1;
      }
      j := j + 1;
    }
    NoSharedColumnNoIntersection(local, columns);
    return false;
  }

  /** A pair of positions naming the same column makes the lists intersect. */
  lemma SharedColumnIntersects(localColumns: seq<string>, indexColumns: seq<string>, i: nat, j: nat)
    requires i < |localColumns| && j < |indexColumns|
    requires Normalize(localColumns[i]) == Normalize(indexColumns[j])
    ensures Intersects(localColumns, indexColumns)
  {
    assert Normalize(localColumns[i]) in NormalizedSet(localColumns) * NormalizedSet(indexColumns);
  }

  /** Without such a pair the lists do not intersect. */
  lemma NoSharedColumnNoIntersection(localColumns: seq<string>, indexColumns: seq<string>)
    requires forall j, i :: 0 <= j < |indexColumns| && 0 <= i < |localColumns| ==> Normalize(localColumns[i]) != Normalize(indexColumns[j])
    ensures !Intersects(localColumns, indexColumns)
  {
    forall n | n in NormalizedSet(indexColumns)
      ensures n !in NormalizedSet(localColumns)
    {
      var j :| 0 <= j < |indexColumns| && Normalize(indexColumns[j]) == n;
    }
  }

  /** The overlap test holds exactly when some local column and some index
      column name the same column. */
  lemma IntersectsIffSharedColumn(localColumns: seq<string>, indexColumns: seq<string>)
    ensures Intersects(localColumns, indexColumns) <==>
      exists i, j :: 0 <= i < |localColumns| && 0 <= j < |indexColumns| && Normalize(localColumns[i]) == Normalize(indexColumns[j])
  {
    if exists i, j :: 0 <= i < |localColumns| && 0 <= j < |indexColumns| && Normalize(localColumns[i]) == Normalize(indexColumns[j]) {
      var i, j :| 0 <= i < |localColumns| && 0 <= j < |indexColumns| && Normalize(localColumns[i]) == Normalize(indexColumns[j]);
      SharedColumnIntersects(localColumns, indexColumns, i, j);
    } else {
      NoSharedColumnNoIntersection(localColumns, indexColumns);
    }
  }

  /** Which side is the foreign key does not matter. */
  lemma IntersectsIsSymmetric(a: seq<string>, b: seq<string>)
    ensures Intersects(a, b) == Intersects(b, a)
  {
    assert NormalizedSet(a) * NormalizedSet(b) == NormalizedSet(b) * NormalizedSet(a);
  }

  /** An index without columns shares none with any foreign key. */
  lemma NoColumnsNoIntersection(localColumns: seq<string>)
    ensures !Intersects(localColumns, [])
  {
    assert NormalizedSet([]) == {};
  }

  /** Splitting the index columns in two: the lists intersect exactly when
      one of the parts does.  In particular a shared column keeps the
      result true whatever unrelated columns are added around it. */
  lemma IntersectsConcat(localColumns: seq<string>, b: seq<string>, c: seq<string>)
    ensures Intersects(localColumns, b + c) <==> Intersects(localColumns, b) || Intersects(localColumns, c)
  {
    NormalizedSetOfConcat(b, c);
  }

  lemma NormalizedSetOfConcat(b: seq<string>, c: seq<string>)
    ensures NormalizedSet(b + c) == NormalizedSet(b) + NormalizedSet(c)
  {
    assert forall name :: name in b + c <==> name in b || name in c;
  }

  /** The order of the index columns, and repeats among them, do not matter:
      only which names occur does. */
  lemma SameColumnsSameAnswer(localColumns: seq<string>, b: seq<string>, b': seq<string>)
    requires forall name :: name in b <==> name in b'
    ensures Intersects(localColumns, b) == Intersects(localColumns, b')
  {
    assert NormalizedSet(b) == NormalizedSet(b');
  }

  /** In particular, any reordering of the index columns. */
  lemma ReorderedColumnsSameAnswer(localColumns: seq<string>, b: seq<string>, b': seq<string>)
    requires multiset(b) == multiset(b')
    ensures Intersects(localColumns, b) == Intersects(localColumns, b')
  {
    forall name
      ensures name in b <==> name in b'
    {
      assert name in b <==> name in multiset(b);
      assert name in b' <==> name in multiset(b');
    }
    SameColumnsSameAnswer(localColumns, b, b');
  }

  /** Backticks around a name that has none of its own do not change it. */
  lemma QuotingIgnored(name: string)
    requires !IsQuoted(name)
    ensures Normalize(Quote(name)) == Normalize(name)
  {
  }

  /** Writing a name in capitals does not change it. */
  lemma CaseIgnored(name: string)
    ensures Normalize(Upper(name)) == Normalize(name)
  {
    var up := Upper(name);
    assert IsQuoted(up) <==> IsQuoted(name);
    assert Unquote(up) == Upper(Unquote(name));
    forall k | 0 <= k < |Unquote(name)|
      ensures Lower(Unquote(up))[k] == Lower(Unquote(name))[k]
    {
      LowerUpperChar(Unquote(name)[k]);
    }
  }

  /** Every name of a list between backticks. */
  function QuoteAll(names: seq<string>): (r: seq<string>)
    ensures |r| == |names|
    ensures forall i :: 0 <= i < |names| ==> r[i] == Quote(names[i])
  {
    seq(|names|, i requires 0 <= i < |names| => Quote(names[i]))
  }

  /** Every name of a list in capitals. */
  function UpperAll(names: seq<string>): (r: seq<string>)
    ensures |r| == |names|
    ensures forall i :: 0 <= i < |names| ==> r[i] == Upper(names[i])
  {
    seq(|names|, i requires 0 <= i < |names| => Upper(names[i]))
  }

  /** Two lists whose names normalise pairwise alike have the same compared
      forms. */
  lemma PairwiseAlikeSameSet(a: seq<string>, a': seq<string>)
    requires |a| == |a'|
    requires forall i :: 0 <= i < |a| ==> Normalize(a[i]) == Normalize(a'[i])
    ensures NormalizedSet(a) == NormalizedSet(a')
  {
    forall n | n in NormalizedSet(a)
      ensures n in NormalizedSet(a')
    {
      var i :| 0 <= i < |a| && Normalize(a[i]) == n;
      assert Normalize(a'[i]) == n;
    }
    forall n | n in NormalizedSet(a')
      ensures n in NormalizedSet(a)
    {
      var i :| 0 <= i < |a'| && Normalize(a'[i]) == n;
      assert Normalize(a[i]) == n;
    }
  }

  /** Quoting the foreign key's columns gives the same answer as leaving
      them bare, whatever the index columns are. */
  lemma QuotedLocalColumnsAgree(a: seq<string>, b: seq<string>)
    requires forall i :: 0 <= i < |a| ==> !IsQuoted(a[i])
    ensures Intersects(QuoteAll(a), b) == Intersects(a, b)
  {
    QuotedNamesAlike(a);
    PairwiseAlikeSameSet(QuoteAll(a), a);
  }

  /** Quoting the index's columns gives the same answer as leaving them
      bare, whatever the foreign key's columns are. */
  lemma QuotedIndexColumnsAgree(a: seq<string>, b: seq<string>)
    requires forall j :: 0 <= j < |b| ==> !IsQuoted(b[j])
    ensures Intersects(a, QuoteAll(b)) == Intersects(a, b)
  {
    QuotedNamesAlike(b);
    PairwiseAlikeSameSet(QuoteAll(b), b);
  }

  lemma QuotedNamesAlike(a: seq<string>)
    requires forall i :: 0 <= i < |a| ==> !IsQuoted(a[i])
    ensures forall i :: 0 <= i < |a| ==> Normalize(QuoteAll(a)[i]) == Normalize(a[i])
  {
    forall i | 0 <= i < |a|
      ensures Normalize(QuoteAll(a)[i]) == Normalize(a[i])
    {
      QuotingIgnored(a[i]);
    }
  }

  /** Capitalising the index's columns gives the same answer. */
  lemma CapitalisedColumnsAgree(a: seq<string>, b: seq<string>)
    ensures Intersects(a, UpperAll(b)) == Intersects(a, b)
  {
    forall j | 0 <= j < |b|
      ensures Normalize(UpperAll(b)[j]) == Normalize(b[j])
    {
      CaseIgnored(b[j]);
    }
    PairwiseAlikeSameSet(UpperAll(b), b);
  }
}

/** The foreign keys and data rows of the `intersectsIndexColumns` tests. */
module SchemaExamples {
  import opened Ascii
  import opened Schema

  /** The local columns of the foreign key in the unquoted test. */
  const BareLocalColumns: seq<string> := ["foo", "bar"]

  /** The local columns of the foreign key in the escaped test. */
  const QuotedLocalColumns: seq<string> := ["`foo`", "`bar`"]

  /** The escaped foreign key is the unquoted one with its columns quoted,
      so the two agree on every index, not only on the rows of the table. */
  lemma QuotedAndBareForeignKeysAgree(indexColumns: seq<string>)
    ensures Intersects(QuotedLocalColumns, indexColumns) == Intersects(BareLocalColumns, indexColumns)
  {
    QuotedLocalColumnsAreBareOnesQuoted();
    QuotedLocalColumnsAgree(BareLocalColumns, indexColumns);
  }

  lemma QuotedLocalColumnsAreBareOnesQuoted()
    ensures QuoteAll(BareLocalColumns) == QuotedLocalColumns
    ensures forall i :: 0 <= i < |BareLocalColumns| ==> !IsQuoted(BareLocalColumns[i])
  {
    assert Quote("foo") == "`foo`";
    assert Quote("bar") == "`bar`";
  }

  /** How the names used by the tests normalise. */
  lemma NamesNormalize()
    ensures Normalize("foo") == "foo" && Normalize("bar") == "bar"
    ensures Normalize("baz") == "baz" && Normalize("bloo") == "bloo"
    ensures Normalize("`foo`") == "foo" && Normalize("`bar`") == "bar"
    ensures Normalize("FOO") == "foo"
  {
    LowerCaseNameNormalizes("foo");
    LowerCaseNameNormalizes("bar");
    LowerCaseNameNormalizes("baz");
    LowerCaseNameNormalizes("bloo");
    assert Quote("foo") == "`foo`";
    assert Quote("bar") == "`bar`";
    QuotingIgnored("foo");
    QuotingIgnored("bar");
    assert Upper("foo") == "FOO";
    CaseIgnored("foo");
  }

  lemma LowerCaseNameNormalizes(name: string)
    requires |name| > 0 && name[0] != Backtick
    requires forall i :: 0 <= i < |name| ==> IsLower(name[i])
    ensures Normalize(name) == name
  {
  }

  /** An index column that normalises to `foo` or `bar` makes the test
      foreign key intersect the index. */
  lemma SharedWithForeignKey(indexColumns: seq<string>, j: nat)
    requires j < |indexColumns| && Normalize(indexColumns[j]) in {"foo", "bar"}
    ensures Intersects(BareLocalColumns, indexColumns)
  {
    NamesNormalize();
    if Normalize(indexColumns[j]) == "foo" {
      SharedColumnIntersects(BareLocalColumns, indexColumns, 0, j);
    } else {
      SharedColumnIntersects(BareLocalColumns, indexColumns, 1, j);
    }
  }

  /** Index columns none of which normalises to `foo` or `bar` do not. */
  lemma NothingSharedWithForeignKey(indexColumns: seq<string>)
    requires forall j :: 0 <= j < |indexColumns| ==> Normalize(indexColumns[j]) !in {"foo", "bar"}
    ensures !Intersects(BareLocalColumns, indexColumns)
  {
    forall j, i | 0 <= j < |indexColumns| && 0 <= i < |BareLocalColumns|
      ensures Normalize(BareLocalColumns[i]) != Normalize(indexColumns[j])
    {
      LocalColumnNormalizes(i);
    }
    NoSharedColumnNoIntersection(BareLocalColumns, indexColumns);
  }

  /** Each column of the test foreign key normalises to `foo` or `bar`. */
  lemma LocalColumnNormalizes(i: nat)
    requires i < |BareLocalColumns|
    ensures Normalize(BareLocalColumns[i]) in {"foo", "bar"}
  {
    NamesNormalize();
  }

  /** `baz` and `bloo` are not columns of the test foreign key. */
  lemma UnrelatedNames()
    ensures Normalize("baz") !in {"foo", "bar"}
    ensures Normalize("bloo") !in {"foo", "bar"}
  {
    NamesNormalize();
    assert "baz"[0] != "foo"[0] && "baz"[2] != "bar"[2];
    assert |"bloo"| != |"foo"| == |"bar"|;
  }

  /** Rows with no shared column: false against both foreign keys. */
  lemma DisjointRowsHold()
    ensures !Intersects(BareLocalColumns, ["baz"]) && !Intersects(QuotedLocalColumns, ["baz"])
    ensures !Intersects(BareLocalColumns, ["baz", "bloo"]) && !Intersects(QuotedLocalColumns, ["baz", "bloo"])
  {
    UnrelatedNames();
    NothingSharedWithForeignKey(["baz"]);
    NothingSharedWithForeignKey(["baz", "bloo"]);
    QuotedAndBareForeignKeysAgree(["baz"]);
    QuotedAndBareForeignKeysAgree(["baz", "bloo"]);
  }

  /** One index column, quoted or bare, naming a foreign-key column: true
      against both foreign keys. */
  lemma SingleColumnRowsHold()
    ensures Intersects(BareLocalColumns, ["`foo`"]) && Intersects(QuotedLocalColumns, ["`foo`"])
    ensures Intersects(BareLocalColumns, ["`bar`"]) && Intersects(QuotedLocalColumns, ["`bar`"])
    ensures Intersects(BareLocalColumns, ["foo"]) && Intersects(QuotedLocalColumns, ["foo"])
    ensures Intersects(BareLocalColumns, ["bar"]) && Intersects(QuotedLocalColumns, ["bar"])
  {
    NamesNormalize();
    SharedWithForeignKey(["`foo`"], 0);
    SharedWithForeignKey(["`bar`"], 0);
    SharedWithForeignKey(["foo"], 0);
    SharedWithForeignKey(["bar"], 0);
    QuotedAndBareForeignKeysAgree(["`foo`"]);
    QuotedAndBareForeignKeysAgree(["`bar`"]);
    QuotedAndBareForeignKeysAgree(["foo"]);
    QuotedAndBareForeignKeysAgree(["bar"]);
  }

  /** Both foreign-key columns, in either order: true. */
  lemma BothColumnsRowsHold()
    ensures Intersects(BareLocalColumns, ["foo", "bar"]) && Intersects(QuotedLocalColumns, ["foo", "bar"])
    ensures Intersects(BareLocalColumns, ["bar", "foo"]) && Intersects(QuotedLocalColumns, ["bar", "foo"])
  {
    NamesNormalize();
    SharedWithForeignKey(["foo", "bar"], 0);
    SharedWithForeignKey(["bar", "foo"], 0);
    QuotedAndBareForeignKeysAgree(["foo", "bar"]);
    QuotedAndBareForeignKeysAgree(["bar", "foo"]);
  }

  /** One foreign-key column among unrelated ones, wherever it stands:
      true. */
  lemma ExtraColumnRowsHold()
    ensures Intersects(BareLocalColumns, ["foo", "baz"]) && Intersects(QuotedLocalColumns, ["foo", "baz"])
    ensures Intersects(BareLocalColumns, ["baz", "foo"]) && Intersects(QuotedLocalColumns, ["baz", "foo"])
    ensures Intersects(BareLocalColumns, ["bar", "baz"]) && Intersects(QuotedLocalColumns, ["bar", "baz"])
    ensures Intersects(BareLocalColumns, ["baz", "bar"]) && Intersects(QuotedLocalColumns, ["baz", "bar"])
  {
    NamesNormalize();
    SharedWithForeignKey(["foo", "baz"], 0);
    SharedWithForeignKey(["baz", "foo"], 1);
    SharedWithForeignKey(["bar", "baz"], 0);
    SharedWithForeignKey(["baz", "bar"], 1);
    QuotedAndBareForeignKeysAgree(["foo", "baz"]);
    QuotedAndBareForeignKeysAgree(["baz", "foo"]);
    QuotedAndBareForeignKeysAgree(["bar", "baz"]);
    QuotedAndBareForeignKeysAgree(["baz", "bar"]);
  }

  /** One foreign-key column among two unrelated ones: true. */
  lemma ThreeColumnRowsHold()
    ensures Intersects(BareLocalColumns, ["foo", "bloo", "baz"]) && Intersects(QuotedLocalColumns, ["foo", "bloo", "baz"])
    ensures Intersects(BareLocalColumns, ["bloo", "foo", "baz"]) && Intersects(QuotedLocalColumns, ["bloo", "foo", "baz"])
    ensures Intersects(BareLocalColumns, ["bloo", "baz", "foo"]) && Intersects(QuotedLocalColumns, ["bloo", "baz", "foo"])
  {
    NamesNormalize();
    SharedWithForeignKey(["foo", "bloo", "baz"], 0);
    SharedWithForeignKey(["bloo", "foo", "baz"], 1);
    SharedWithForeignKey(["bloo", "baz", "foo"], 2);
    QuotedAndBareForeignKeysAgree(["foo", "bloo", "baz"]);
    QuotedAndBareForeignKeysAgree(["bloo", "foo", "baz"]);
    QuotedAndBareForeignKeysAgree(["bloo", "baz", "foo"]);
  }

  /** A capitalised column name: true. */
  lemma CapitalisedRowHolds()
    ensures Intersects(BareLocalColumns, ["FOO"]) && Intersects(QuotedLocalColumns, ["FOO"])
  {
    NamesNormalize();
    SharedWithForeignKey(["FOO"], 0);
    QuotedAndBareForeignKeysAgree(["FOO"]);
  }
}

=== FILE: versions.dfy ===
/** Version triples, their ordering, the feature thresholds the driver
    compares against, and the one error the version parsers raise. */
module Versions {

  /** A resolved `major.minor.patch` version. */
  datatype Version = Version(major: nat, minor: nat, patch: nat)

  /** `version_compare(v, w, '>=')` on two numeric dotted triples: the first
      component that differs decides; equal triples compare as equal. */
  predicate AtLeast(v: Version, w: Version) {
    || v.major > w.major
    || (v.major == w.major && v.minor > w.minor)
    || (v.major == w.major && v.minor == w.minor && v.patch >= w.patch)
  }

  /** First MariaDB release served by `MariaDb1027Platform`. */
  const MariaDb1027Version := Version(10, 2, 7)

  /** `createDatabasePlatformForVersion` compares against the one-component
      version `'8'`. */
  const MySQL80Version := Version(8, 0, 0)

  /** First MySQL 5.7 release served by `MySQL57Platform`. */
  const MySQL57Version := Version(5, 7, 9)

  /** `AtLeast` is a total order on version triples. */
  lemma AtLeastIsTotalOrder(u: Version, v: Version, w: Version)
    ensures AtLeast(v, v)
    ensures AtLeast(v, w) || AtLeast(w, v)
    ensures AtLeast(v, w) && AtLeast(w, v) ==> v == w
    ensures AtLeast(u, v) && AtLeast(v, w) ==> AtLeast(u, w)
  {
  }

  /** Comparing with `'8'` reads the major number alone: every `8.x.y`
      is at least `8`, every `7.x.y` is below it. */
  lemma MySQL80ThresholdIsMajor(v: Version)
    ensures AtLeast(v, MySQL80Version) <==> v.major >= 8
  {
  }

  /** Which grammar a version string failed to match. */
  datatype ExpectedFormat = OracleFormat | MariaDbFormat

  /** `InvalidPlatformVersion`: the offending string and the expected shape. */
  datatype InvalidPlatformVersion = InvalidPlatformVersion(version: string, expected: ExpectedFormat)
}

=== FILE: wrappers.dfy ===
/** Failure-compatible wrappers used by the parsers: an optional value and a
    value-or-error result (the `InvalidPlatformVersion` that the version
    parsers throw becomes `Failure`). */
module Wrappers {

  datatype Option<+T> = None | Some(value: T) {

    /** The carried value, or `default` when there is none (PHP's `??`). */
    function GetOr(default: T): T {
      if Some? then value else default
    }
  }

  datatype Result<+R, +E> = Success(value: R) | Failure(error: E) {

    predicate IsFailure() {
      Failure?
    }

    function PropagateFailure<U>(): Result<U, E>
      requires Failure?
    {
      Failure(error)
    }

    function Extract(): R
      requires Success?
    {
      value
    }
  }
}
